=== FILE: README.md ===
# Home-screen carousel and label logic of a novel-reading app

This project is a Dafny model of the pure logic on the home screen of a mobile
novel-reading app (`aplcions-zeuz/src/screens/HomeScreen.js`):

- **The auto-advancing carousel controller.** It is implemented twice. The
  trending rail (`AutoScrollCarousel`) and the hero banner (`HeroCarousel`)
  share one state machine in the model. A `Kind` carries what differs
  between them:
  - the tick guard: `n > 0` for the rail, `n > 1` for the hero;
  - the touch cooldown: 3000 ms for the rail, 4000 ms for the hero;
  - the item extent used when a scroll settles: `itemWidth + 15` for the
    rail, the window width for the hero;
  - the rail's offset fallback when an index scroll fails. The hero has none.
- **`getTimeAgo`.** It turns elapsed seconds into a (unit, count) bucket and
  the Arabic label for it.
- **`getStatusConfig`.** It maps a novel status to a tag colour and label.
- **The unread-notification badge and bell icon** in the header.

Modules:
- `Carousel` (carousel.dfy): the controller state, events, per-event step
  functions, and runs of events.
- `CarouselLaws` (carousel_laws.dfy): properties of ticks, touches, cooldowns,
  settling and the fallback.
- `TimeAgo` (time_ago.dfy), `Status` (status.dfy), `Badge` (badge.dfy).
- `Decimal` (decimal.dfy): the decimal text of a number, with its inverse.
- `Wrappers` (wrappers.dfy): the `Option` datatype.

The controller model has no timers of its own. Every timer is an explicit
event:
- `Tick` is one firing of the advance interval.
- `Elapse(ms)` advances a millisecond clock. It fires every touch cooldown
  whose deadline has been reached.
- `FocusChanged` only starts and stops the interval in the source, so it
  decides whether ticks arrive. It cancels nothing and changes no state.

The model keeps the source's quirks:
- The index changes on a tick only when the list view is mounted.
- A settled index is never clamped to the list.
- A stale index left after the list shrinks is not corrected until the next
  tick that passes the guard with the view mounted, or a settle; a suppressed
  or unmounted tick leaves it in place.
- A cooldown is never cancelled, so it clears `userTouched` even while the
  finger is down again.

Three behaviours one might expect of such a controller are absent from the
code, and the model follows the code:
- A stale index is not clamped when the list is replaced.
- Ticks are not guarded by an "active" flag; losing focus only stops the
  interval.
- Neither a new touch-start nor losing focus cancels a pending cooldown.

## Model

| member | source | states |
|---|---|---|
| `Carousel.OnTick` | aplcions-zeuz/src/screens/HomeScreen.js:73-85 | Covers the hero too (lines 128-137). A tick scrolls exactly when the guard holds (not touched, at least 1 item for the rail, 2 for the hero) and the list view is mounted. Otherwise nothing changes and no command is sent. When it scrolls, the command targets the new index. From any index >= -1 the new index lies in [0, n). A stale index >= n-1 wraps to 0. Only the index changes. |
| `CarouselLaws.TickIsModularSuccessor` | aplcions-zeuz/src/screens/HomeScreen.js:75-76 | From a valid index, an enabled tick moves to (i + 1) mod n and scrolls there. |
| `CarouselLaws.TicksCycle` | aplcions-zeuz/src/screens/HomeScreen.js:73-85 | m uninterrupted ticks from index i end at (i + m) mod n. They send exactly m commands: scrolls to i+1, i+2, ... mod n, in order. |
| `CarouselLaws.FullCycleReturnsToStart` | aplcions-zeuz/src/screens/HomeScreen.js:128-137 | n ticks over an n-item list return the controller to its starting state. |
| `CarouselLaws.ShrunkListRecoversOnTick` | aplcions-zeuz/src/screens/HomeScreen.js:130-131 | Replacing the list leaves a stale index untouched. The next enabled tick lands inside the new list. |
| `Carousel.StillPending` | aplcions-zeuz/src/screens/HomeScreen.js:103 | The cooldowns still pending at time t are exactly the earlier ones whose deadline is after t. The number of pending cooldowns is kept exactly when every deadline is after t. |
| `Carousel.OnElapse` | aplcions-zeuz/src/screens/HomeScreen.js:220 | Time advances by ms. Exactly the deadlines reached are removed. `userTouched` stays set only if no cooldown fell due; each firing clears it unconditionally. |
| `Carousel.Step` | aplcions-zeuz/src/screens/HomeScreen.js:102-113 | Frame laws of every event. Only ticks and failed scrolls send commands. Only ticks and settles move the index. Only a cooldown expiry clears `userTouched`, and only touch-start sets it. No event except time passing removes a pending cooldown. Only list replacement changes n, and only mount changes change the ref. |
| `Carousel.OnTouchStart` | aplcions-zeuz/src/screens/HomeScreen.js:102 | Finger down sets `userTouched` at once; nothing else changes and no pending cooldown is cancelled. |
| `Carousel.OnTouchEnd` | aplcions-zeuz/src/screens/HomeScreen.js:103 | Finger up leaves `userTouched` as it is and schedules one more cooldown, due at now plus the kind's delay (3000 ms rail, 4000 ms hero, line 220). |
| `CarouselLaws.SuppressedUntilCooldown` | aplcions-zeuz/src/screens/HomeScreen.js:102-103 | Start touched, with no pending cooldown due before a horizon the events do not reach. Whatever the events, settles included, the suppression stays in force and no scroll-to-index is sent. Only a settle moves the index: a run without settles leaves it unchanged. |
| `CarouselLaws.TouchHoldsForCooldown` | aplcions-zeuz/src/screens/HomeScreen.js:219-220 | Start from no pending cooldowns, touch, then lift. Any events spanning less than the cooldown (3000 ms rail, 4000 ms hero), settles included, send no scroll-to-index. If they contain no settle, the index is unchanged. |
| `CarouselLaws.SwipeStaysWhereItSettled` | aplcions-zeuz/src/screens/HomeScreen.js:102-107 | Start from no pending cooldowns. A swipe is touch, lift, and the momentum scroll settling at an offset. The index becomes the item the swipe rested on. Events after the lift that span less than the cooldown and contain no further settle leave it there, and no tick scrolls away from it. |
| `CarouselLaws.HoldKeepsSuppressed` | aplcions-zeuz/src/screens/HomeScreen.js:102 | A held finger with no cooldown pending stays in force for any length of time. Without a touch-end, no event clears it, schedules a cooldown or sends a scroll-to-index. Without a settle as well, the index is unchanged. |
| `CarouselLaws.HeldTouchHoldsForCooldown` | aplcions-zeuz/src/screens/HomeScreen.js:219-220 | Start from no pending cooldowns. Touch, hold through any events without a lift, lift, then events spanning less than the cooldown. No scroll-to-index is sent, even with settles. If neither phase contains a settle, the index is unchanged. |
| `CarouselLaws.CooldownExpiryResumes` | aplcions-zeuz/src/screens/HomeScreen.js:74 | From any state with the view mounted and enough items, even with earlier cooldowns pending: touch, lift, wait the cooldown, and the next tick scrolls once, to the next index. |
| `CarouselLaws.EarlierCooldownReleasesHeldTouch` | aplcions-zeuz/src/screens/HomeScreen.js:103 | A cooldown from an earlier touch-end is cancelled neither by a new touch-start nor by losing focus. When it expires it clears `userTouched` while the finger is down. |
| `CarouselLaws.TickAfterReleasedHeldTouchScrolls` | aplcions-zeuz/src/screens/HomeScreen.js:128-137 | After that early release, the next tick scrolls under the user's finger. |
| `CarouselLaws.ThreeItemsWrapAfterThreeTicks` | aplcions-zeuz/src/screens/HomeScreen.js:66-85 | A freshly rendered three-item carousel (index 0, line 66) scrolls to 1, 2, 0 on its first three ticks and is then back in its initial state. |
| `CarouselLaws.RunAppend` | aplcions-zeuz/src/screens/HomeScreen.js:64-116 | Feeding events a then b is feeding a + b: states chain and commands concatenate. |
| `Carousel.RoundDiv` | aplcions-zeuz/src/screens/HomeScreen.js:105 | `Math.round(x / d)`: the result r satisfies r - 1/2 <= x/d < r + 1/2 (halves round up). |
| `CarouselLaws.RoundDivUnique` | aplcions-zeuz/src/screens/HomeScreen.js:222 | Exactly one integer satisfies that rounding condition. |
| `Carousel.OnSettle` | aplcions-zeuz/src/screens/HomeScreen.js:104-107 | On settle the index becomes the item position nearest the offset, using the kind's extent. Nothing else changes. |
| `CarouselLaws.SettleOnItemPosition` | aplcions-zeuz/src/screens/HomeScreen.js:221-224 | Resting exactly on position i sets the index to i, for every integer i. |
| `CarouselLaws.SettleNotClamped` | aplcions-zeuz/src/screens/HomeScreen.js:104-107 | Resting one position past the last item sets the index to n, outside the list. |
| `Carousel.OnScrollToIndexFailed` | aplcions-zeuz/src/screens/HomeScreen.js:108-113 | A failed index scroll never changes state. The rail sends `ScrollToOffset(averageItemLength * index)` exactly when the view is mounted. The hero sends nothing. |
| `CarouselLaws.FallbackThenSettleReconciles` | aplcions-zeuz/src/screens/HomeScreen.js:108-113 | On the rail, when the average length equals the snap extent, the fallback offset followed by its settle reconciles the index to the requested item. |
| `CarouselLaws.HeroHasNoFallback` | aplcions-zeuz/src/screens/HomeScreen.js:210-225 | The hero ignores a failed index scroll: same state, no command. |
| `TimeAgo.Classify` | aplcions-zeuz/src/screens/HomeScreen.js:35-49 | A missing date gives "soon". Elapsed <= 60 s, including the future, gives "just now". Otherwise the unit is the largest one the elapsed time strictly exceeds. The count is the whole number of units: at least 1, at most 12 months, 30 days, 24 hours or 60 minutes. |
| `TimeAgo.ClassifyMonotone` | aplcions-zeuz/src/screens/HomeScreen.js:38-47 | More elapsed time never gives an earlier bucket: never a smaller unit, never a smaller count in the same unit. |
| `TimeAgo.ExactUnitDropsToSmallerUnit` | aplcions-zeuz/src/screens/HomeScreen.js:38-47 | Exactly one unit is reported in the next smaller unit (3600 s is 60 minutes), and 60 s is "just now". |
| `TimeAgo.RenderRoundTrip` | aplcions-zeuz/src/screens/HomeScreen.js:36-48 | Every label text reads back as its bucket, so distinct buckets show distinct labels. |
| `TimeAgo.Render` | aplcions-zeuz/src/screens/HomeScreen.js:36-48 | The "soon" and "just now" texts are produced exactly for those buckets. Every other label starts with "منذ ", then a digit that is not a zero-padding `0` for a positive count, and ends with the unit's word. |
| `TimeAgo.TimeAgoText` | aplcions-zeuz/src/screens/HomeScreen.js:35-49 | The label is "soon" exactly for a missing date and "just now" exactly for at most 60 s. Past a minute it starts with "منذ " and a count that is not zero-padded. Every label reads back as the date's bucket, and a zero-padded count never reads back. |
| `Decimal.ParseShow` | aplcions-zeuz/src/screens/HomeScreen.js:39 | The decimal numeral written into a label reads back as the number. |
| `Status.ConfigOf` | aplcions-zeuz/src/screens/HomeScreen.js:52-61 | The label is always one of the three statuses. A completed or stopped input keeps its own label and gets its own colour. Every other string gives the ongoing tag with its colour. |
| `Status.ConfigOfLabel` | aplcions-zeuz/src/screens/HomeScreen.js:52-61 | A tag's label maps back to the same tag. |
| `Status.ColorMatchesLabel` | aplcions-zeuz/src/screens/HomeScreen.js:52-61 | Two statuses share a colour exactly when they share a label. |
| `Badge.BadgeText` | aplcions-zeuz/src/screens/HomeScreen.js:487 | The badge is drawn exactly when the count is positive. It reads "99+" exactly when the count exceeds 99. Otherwise it is the count's decimal numeral: digits only, no leading zero, reading back as the count. It is 1 to 3 characters long. |
| `Badge.BellIcon` | aplcions-zeuz/src/screens/HomeScreen.js:486 | The filled bell shows exactly when the badge does. |
| `Badge.BadgeDistinguishesUpTo99` | aplcions-zeuz/src/screens/HomeScreen.js:487 | Two positive counts give the same badge exactly when they are equal or both exceed 99. |

## Left out

- The navigation shell in `aplcions-zeuz/App.js`: it is declarative routing and tab-bar styling with no behaviour of its own.
- Data fetching (`fetchData`, `fetchTrending`, `fetchNotifications`, `fetchLastRead`): network calls through an API module that is not part of this model.
- The PWA install banner: it depends on browser window APIs and `alert`.
- Animations, interpolations and the stylesheet: floating-point presentation.
- Interval cadence (4500 ms for the rail, 5500 ms for the hero) and the re-creation of the interval on every index change. Each interval firing is a `Tick` event, and whether ticks arrive (focus) is the host's choice. `startTimeRef` is written but never read, so it is not modelled.
- The wall clock in `getTimeAgo`: `TimeAgo.Classify` takes whole elapsed seconds. The date parsing and the `Math.floor(ms / 1000)` that produce them are not modelled. Neither is an unparseable date, which yields NaN and the "just now" label in the source.
- Pixel geometry is integral. `Math.round` over doubles is modelled exactly for integer offsets and extents. `averageItemLength` is an integer supplied by the failing event.
- The hero renders nothing for an empty list (line 206), which detaches its list view. In the model that detachment is a `RefChanged(false)` event from the host, not a consequence of `DataReplaced`.
- How the list-view framework reacts when the hero's index scroll fails without a handler is not part of this model; the hero's own code does nothing.
- `Carousel.OnTick`: for the hero, the model always stores the new index after a scroll command. If the list-view framework stops with an error on a hero `scrollToIndex` it cannot perform, because the hero has no failure handler, then `setCurrentIndex` at line 134 is never reached. That framework behaviour is outside the modelled source.
- `Status.ConfigOf` takes a string; a missing (non-string) status behaves like any unrecognised string, as in the source.
- `Badge.BadgeText` takes an integer count; the API's count is assumed integral.
- The dropdown's "n new" count text (line 432) is a plain interpolation of the same count.

=== FILE: badge.dfy ===
/** The unread-notifications indicator in the home header: the bell icon
    and the count badge beside it. */
module Badge {
  import opened Wrappers
  import Decimal

  const Overflow: string := "99+"
  const BellFilled: string := "notifications"
  const BellOutline: string := "notifications-outline"

  /** The badge text, or None when no badge is drawn. A count above 99 is
      capped to "99+". */
  function BadgeText(unread: int): (r: Option<string>)
    ensures r.Some? <==> unread > 0
    ensures r.Some? ==> (r.value == Overflow <==> unread > 99)
    ensures r.Some? ==> 1 <= |r.value| <= 3
    ensures 0 < unread <= 99 ==> Decimal.AllDigits(r.value) && Decimal.Parse(r.value) == unread
    ensures 0 < unread <= 99 ==> r.value[0] != '0'
  {
    if unread <= 0 then None
    else if unread > 99 then Some(Overflow)
    else
      Decimal.ParseShow(unread);
      Some(Decimal.Show(unread))
  }

  /** The bell icon: filled exactly when a badge is drawn. */
  function BellIcon(unread: int): (r: string)
    ensures r == BellFilled <==> BadgeText(unread).Some?
    ensures r == BellFilled || r == BellOutline
  {
    if unread > 0 then BellFilled else BellOutline
  }

  /** Different counts up to 99 give different badges, and every count above
      99 gives the same one. */
  lemma BadgeDistinguishesUpTo99(a: int, b: int)
    requires 0 < a && 0 < b
    ensures BadgeText(a) == BadgeText(b) <==> a == b || (a > 99 && b > 99)
  {
    if a <= 99 && b <= 99 && BadgeText(a) == BadgeText(b) {
      Decimal.ShowInjective(a, b);
    }
  }
}

=== FILE: carousel.dfy ===
/** The auto-advancing carousel controller behind the home screen's trending
    rail and hero banner. One controller is a state record driven by
    explicit events; each event yields the next state and the scroll command
    it sends to the list view, if any.

    Timers are events here. `Tick` is one firing of the advance interval.
    `Elapse(ms)` moves the clock forward and fires every touch cooldown that
    falls due by then. Focus changes only start and stop the interval, so
    they decide whether ticks arrive and change no state of their own. */
module Carousel {
  import opened Wrappers

  type Positive = x: int | x > 0 witness 1

  /** The two instances differ in guard, cooldown, item extent and whether
      a failed index scroll is recovered. */
  datatype Kind =
    | Rail(itemWidth: nat)         // trending rail: snaps to itemWidth + 15
    | Hero(screenWidth: Positive)  // hero banner: pages by the window width

  /** Gap between rail items, added to the item width to get the snap step. */
  const RailGap: nat := 15

  /** Delay between lifting the finger and re-enabling auto-advance. */
  function Cooldown(k: Kind): (ms: nat)
    ensures ms > 0
  {
    match k
    case Rail(_) => 3000
    case Hero(_) => 4000
  }

  /** Fewest items for which a tick advances: the rail needs one item, the
      hero two. */
  function MinItems(k: Kind): (m: nat)
    ensures m > 0
  {
    match k
    case Rail(_) => 1
    case Hero(_) => 2
  }

  /** Width of one item position along the scroll axis. */
  function Extent(k: Kind): Positive {
    match k
    case Rail(w) => w + RailGap
    case Hero(w) => w
  }

  /** A controller instance.
      - `n`: length of the current item list;
      - `currentIndex`: the index the controller believes is on screen; it is
        never clamped, so it can lie outside [0, n);
      - `userTouched`: auto-advance is suppressed while this is set;
      - `refPresent`: the list view is mounted and reachable;
      - `pending`: deadlines of touch cooldowns not yet fired;
      - `now`: the clock, in milliseconds. */
  datatype State = State(
    n: nat,
    currentIndex: int,
    userTouched: bool,
    refPresent: bool,
    pending: seq<int>,
    now: int)

  /** A controller as first rendered: index 0, not touched, no cooldowns. */
  function Initial(n: nat, refPresent: bool, now: int): State {
    State(n, 0, false, refPresent, [], now)
  }

  /** Commands sent to the list view (always animated). */
  datatype Command =
    | ScrollToIndex(index: int)
    | ScrollToOffset(offset: int)

  datatype Event =
    | Tick                                               // advance interval fired
    | TouchStart                                         // finger down on the list
    | TouchEnd                                           // finger lifted
    | Elapse(ms: nat)                                    // time passes; due cooldowns fire
    | Settle(offsetX: int)                               // momentum scroll ended at offsetX
    | ScrollToIndexFailed(index: int, averageItemLength: int)
    | DataReplaced(n: nat)                               // a new item list arrived
    | RefChanged(present: bool)                          // list view mounted or unmounted
    | FocusChanged(focused: bool)                        // screen gained or lost focus

  datatype Transition = Transition(next: State, cmd: Option<Command>)

  /** Whether the interval body gets past its guard. */
  predicate TickEnabled(k: Kind, s: State) {
    !s.userTouched && s.n >= MinItems(k)
  }

  /** The index the interval body moves to: one further, or back to 0 once
      that reaches the list length. */
  function NextIndex(i: int, n: nat): int {
    if i + 1 >= n then 0 else i + 1
  }

  /** One firing of the advance interval. The index moves and the view is
      told to scroll there only when the guard passes and the list view is
      mounted; otherwise nothing happens. */
  function OnTick(k: Kind, s: State): (t: Transition)
    ensures t.cmd.Some? <==> TickEnabled(k, s) && s.refPresent
    ensures t.cmd.None? ==> t.next == s
    ensures t.cmd.Some? ==> t.cmd.value == ScrollToIndex(t.next.currentIndex)
    ensures t.next == s.(currentIndex := t.next.currentIndex)
    ensures t.cmd.Some? && s.currentIndex >= -1 ==> 0 <= t.next.currentIndex < s.n
    ensures t.cmd.Some? && s.currentIndex >= s.n - 1 ==> t.next.currentIndex == 0
    ensures t.cmd.Some? && s.currentIndex < s.n - 1 ==> t.next.currentIndex == s.currentIndex + 1
  {
    if TickEnabled(k, s) && s.refPresent then
      var i := NextIndex(s.currentIndex, s.n);
      Transition(s.(currentIndex := i), Some(ScrollToIndex(i)))
    else
      Transition(s, None)
  }

  /** Finger down: suppress auto-advance at once. Pending cooldowns are kept. */
  function OnTouchStart(s: State): (r: State)
    ensures r.userTouched
    ensures r == s.(userTouched := r.userTouched)
  {
    s.(userTouched := true)
  }

  /** Finger up: schedule a cooldown to lift the suppression later; the flag
      itself is left as it is. */
  function OnTouchEnd(k: Kind, s: State): (r: State)
    ensures r.pending == s.pending + [s.now + Cooldown(k)]
    ensures r.userTouched == s.userTouched
    ensures r == s.(pending := r.pending)
  {
    s.(pending := s.pending + [s.now + Cooldown(k)])
  }

  /** The deadlines of `pending` that are still in the future at time `t`,
      in their original order. */
  function StillPending(pending: seq<int>, t: int): (r: seq<int>)
    ensures forall d :: d in r <==> d in pending && d > t
    ensures |r| <= |pending|
    ensures |r| == |pending| <==> forall i :: 0 <= i < |pending| ==> pending[i] > t
    decreases |pending|
  {
    if |pending| == 0 then []
    else
      var rest := StillPending(pending[1..], t);
      assert pending == [pending[0]] + pending[1..];
      if pending[0] > t then [pending[0]] + rest else rest
  }

  /** Time passes by `ms`. Every cooldown due by the new time fires, and each
      firing clears `userTouched` whatever its current value. */
  function OnElapse(s: State, ms: nat): (r: State)
    ensures r.now == s.now + ms
    ensures forall d :: d in r.pending <==> d in s.pending && d > r.now
    ensures r.userTouched <==> s.userTouched && forall i :: 0 <= i < |s.pending| ==> s.pending[i] > r.now
    ensures r == s.(now := r.now, pending := r.pending, userTouched := r.userTouched)
  {
    var t := s.now + ms;
    var rest := StillPending(s.pending, t);
    s.(now := t, pending := rest, userTouched := s.userTouched && |rest| == |s.pending|)
  }

  /** `Math.round(x / d)` for an integer offset and a positive extent: the
      nearest integer, halves rounded up. */
  function RoundDiv(x: int, d: Positive): (r: int)
    ensures 2 * d * r - d <= 2 * x < 2 * d * r + d
  {
    (2 * x + d) / (2 * d)
  }

  /** The scroll came to rest: the index becomes the item position nearest
      to the offset, with no clamping to the list. */
  function OnSettle(k: Kind, s: State, offsetX: int): (r: State)
    ensures 2 * Extent(k) * r.currentIndex - Extent(k) <= 2 * offsetX < 2 * Extent(k) * r.currentIndex + Extent(k)
    ensures r == s.(currentIndex := r.currentIndex)
  {
    s.(currentIndex := RoundDiv(offsetX, Extent(k)))
  }

  /** The view could not scroll to an index. The rail falls back to an
      offset estimated from the average item length, if the view is still
      mounted; the hero has no fallback. The state never changes. */
  function OnScrollToIndexFailed(k: Kind, s: State, index: int, averageItemLength: int): (t: Transition)
    ensures t.next == s
    ensures t.cmd.Some? <==> k.Rail? && s.refPresent
    ensures t.cmd.Some? ==> t.cmd.value == ScrollToOffset(averageItemLength * index)
  {
    if k.Rail? && s.refPresent then Transition(s, Some(ScrollToOffset(averageItemLength * index)))
    else Transition(s, None)
  }

  /** Reacts to one event. */
  function Step(k: Kind, s: State, e: Event): (t: Transition)
    ensures t.cmd.Some? ==> e.Tick? || e.ScrollToIndexFailed?
    ensures t.next.currentIndex != s.currentIndex ==> e.Tick? || e.Settle?
    ensures s.userTouched && !t.next.userTouched ==> e.Elapse?
    ensures !s.userTouched && t.next.userTouched ==> e.TouchStart?
    ensures !e.Elapse? ==> s.pending <= t.next.pending && t.next.now == s.now
    ensures t.next.n != s.n ==> e.DataReplaced?
    ensures t.next.refPresent != s.refPresent ==> e.RefChanged?
  {
    match e
    case Tick => OnTick(k, s)
    case TouchStart => Transition(OnTouchStart(s), None)
    case TouchEnd => Transition(OnTouchEnd(k, s), None)
    case Elapse(ms) => Transition(OnElapse(s, ms), None)
    case Settle(x) => Transition(OnSettle(k, s, x), None)
    case ScrollToIndexFailed(i, avg) => OnScrollToIndexFailed(k, s, i, avg)
    case DataReplaced(n) => Transition(s.(n := n), None)
    case RefChanged(p) => Transition(s.(refPresent := p), None)
    case FocusChanged(_) => Transition(s, None)
  }

  function Emitted(cmd: Option<Command>): seq<Command> {
    match cmd
    case None => []
    case Some(c) => [c]
  }

  /** The result of feeding a sequence of events to a controller: its final
      state and every command sent, in order. */
  datatype Trace = Trace(final: State, cmds: seq<Command>)

  function Run(k: Kind, s: State, es: seq<Event>): Trace
    decreases |es|
  {
    if |es| == 0 then Trace(s, [])
    else
      var t := Step(k, s, es[0]);
      var rest := Run(k, t.next, es[1..]);
      Trace(rest.final, Emitted(t.cmd) + rest.cmds)
  }

  /** `m` consecutive ticks. */
  function Ticks(m: nat): (es: seq<Event>)
    ensures |es| == m
    ensures forall i :: 0 <= i < m ==> es[i] == Tick
  {
    seq(m, _ => Tick)
  }

  /** Total time the events let pass. */
  function Elapsed(es: seq<Event>): nat
    decreases |es|
  {
    if |es| == 0 then 0
    else (if es[0].Elapse? then es[0].ms else 0) + Elapsed(es[1..])
  }
}

=== FILE: carousel_laws.dfy ===
/** Properties of the carousel controller over single events and over runs
    of events: wrap-around, suppression by touch, the cooldown quirks, and
    the settle and fallback geometry. */
module CarouselLaws {
  import opened Wrappers
  import opened Carousel

  // ---------------------------------------------------------------------
  // Integer arithmetic used by the proofs

  lemma MulAtLeast(x: int, n: int)
    requires x >= 1 && n > 0
    ensures x * n >= n
  {
  }

  /** Euclidean remainder is determined by any quotient/remainder split. */
  lemma {:induction false} ModUnique(a: int, n: int, q: int, r: int)
    requires n > 0 && a == q * n + r && 0 <= r < n
    ensures a % n == r
  {
    var q0, r0 := a / n, a % n;
    assert a == q0 * n + r0;
    assert (q - q0) * n == r0 - r;
    if q > q0 {
      MulAtLeast(q - q0, n);
    } else if q < q0 {
      MulAtLeast(q0 - q, n);
    }
  }

  lemma ModAddMod(a: nat, b: nat, n: nat)
    requires n > 0
    ensures (a % n + b) % n == (a + b) % n
  {
    var q, r := a / n, a % n;
    var q', r' := (r + b) / n, (r + b) % n;
    assert a + b == (q + q') * n + r';
    ModUnique(a + b, n, q + q', r');
  }

  // ---------------------------------------------------------------------
  // Unfolding runs

  lemma RunCons(k: Kind, s: State, e: Event, es: seq<Event>)
    ensures Run(k, s, [e] + es)
         == Trace(Run(k, Step(k, s, e).next, es).final,
                  Emitted(Step(k, s, e).cmd) + Run(k, Step(k, s, e).next, es).cmds)
  {
    assert ([e] + es)[1..] == es;
  }

  /** An event that sends no command contributes only its next state. */
  lemma RunQuiet(k: Kind, s: State, e: Event, es: seq<Event>)
    requires Step(k, s, e).cmd.None?
    ensures Run(k, s, [e] + es) == Run(k, Step(k, s, e).next, es)
  {
    RunCons(k, s, e, es);
  }

  // ---------------------------------------------------------------------
  // Ticks

  /** An enabled tick from a valid index is the cyclic successor modulo the
      list length. */
  lemma TickIsModularSuccessor(k: Kind, s: State)
    requires TickEnabled(k, s) && s.refPresent && 0 <= s.currentIndex < s.n
    ensures OnTick(k, s).next.currentIndex == (s.currentIndex + 1) % s.n
    ensures OnTick(k, s).cmd == Some(ScrollToIndex((s.currentIndex + 1) % s.n))
  {
    if s.currentIndex + 1 < s.n {
      ModUnique(s.currentIndex + 1, s.n, 0, s.currentIndex + 1);
    } else {
      ModUnique(s.currentIndex + 1, s.n, 1, 0);
    }
  }

  /** `m` uninterrupted ticks from index i leave the controller at
      (i + m) mod n, having scrolled to i+1, i+2, ... modulo n in turn. */
  lemma {:induction false} TicksCycle(k: Kind, s: State, m: nat)
    requires TickEnabled(k, s) && s.refPresent && 0 <= s.currentIndex < s.n
    ensures Run(k, s, Ticks(m)).final == s.(currentIndex := (s.currentIndex + m) % s.n)
    ensures |Run(k, s, Ticks(m)).cmds| == m
    ensures forall j :: 0 <= j < m ==>
              Run(k, s, Ticks(m)).cmds[j] == ScrollToIndex((s.currentIndex + j + 1) % s.n)
    decreases m
  {
    var i, n := s.currentIndex, s.n;
    if m == 0 {
      ModUnique(i, n, 0, i);
      assert Run(k, s, Ticks(0)) == Trace(s, []);
    } else {
      var t := OnTick(k, s);
      var s1 := t.next;
      TickIsModularSuccessor(k, s);
      assert s1 == s.(currentIndex := (i + 1) % n);
      assert Ticks(m) == [Tick] + Ticks(m - 1);
      RunCons(k, s, Tick, Ticks(m - 1));
      TicksCycle(k, s1, m - 1);
      ModAddMod(i + 1, m - 1, n);
      var rest := Run(k, s1, Ticks(m - 1));
      assert rest.final == s.(currentIndex := (i + m) % n);
      assert Run(k, s, Ticks(m)).cmds == [ScrollToIndex((i + 1) % n)] + rest.cmds;
      ScrollsShiftByOne(i, n, m, rest.cmds, Run(k, s, Ticks(m)).cmds);
    }
  }

  /** The scrolls after the first tick, read from index i + 1, are the
      scrolls of the whole run read from index i. */
  lemma ScrollsShiftByOne(i: nat, n: nat, m: nat, rest: seq<Command>, cmds: seq<Command>)
    requires n > 0 && m > 0 && |rest| == m - 1
    requires forall j :: 0 <= j < m - 1 ==> rest[j] == ScrollToIndex(((i + 1) % n + j + 1) % n)
    requires cmds == [ScrollToIndex((i + 1) % n)] + rest
    ensures forall j :: 0 <= j < m ==> cmds[j] == ScrollToIndex((i + j + 1) % n)
  {
    forall j | 1 <= j < m
      ensures cmds[j] == ScrollToIndex((i + j + 1) % n)
    {
      assert cmds[j] == rest[j - 1];
      ModAddMod(i + 1, j, n);
    }
  }

  /** n uninterrupted ticks over an n-item list come back to where they
      started. */
  lemma FullCycleReturnsToStart(k: Kind, s: State)
    requires TickEnabled(k, s) && s.refPresent && 0 <= s.currentIndex < s.n
    ensures Run(k, s, Ticks(s.n)).final == s
  {
    TicksCycle(k, s, s.n);
    ModUnique(s.currentIndex + s.n, s.n, 1, s.currentIndex);
  }

  /** After the list is replaced by a shorter one, the stale index is not
      corrected, but the next enabled tick lands inside the new list. */
  lemma ShrunkListRecoversOnTick(k: Kind, s: State, n: nat)
    requires s.currentIndex >= 0 && !s.userTouched && s.refPresent && n >= MinItems(k)
    ensures Run(k, s, [DataReplaced(n)]).final.currentIndex == s.currentIndex
    ensures 0 <= Run(k, s, [DataReplaced(n), Tick]).final.currentIndex < n
  {
    RunCons(k, s, DataReplaced(n), [Tick]);
    RunCons(k, s.(n := n), Tick, []);
  }

  /** A freshly rendered three-item carousel scrolls to items 1, 2, 0 on
      its first three ticks and is then back at item 0. */
  lemma ThreeItemsWrapAfterThreeTicks(k: Kind, now: int)
    requires MinItems(k) <= 3
    ensures Run(k, Initial(3, true, now), Ticks(1)).final.currentIndex == 1
    ensures Run(k, Initial(3, true, now), Ticks(3)).final == Initial(3, true, now)
    ensures Run(k, Initial(3, true, now), Ticks(3)).cmds
         == [ScrollToIndex(1), ScrollToIndex(2), ScrollToIndex(0)]
  {
    var s := Initial(3, true, now);
    TicksCycle(k, s, 1);
    TicksCycle(k, s, 3);
    FullCycleReturnsToStart(k, s);
  }

  // ---------------------------------------------------------------------
  // Touch suppression and cooldowns

  /** No command in `cmds` is a scroll to an index. */
  predicate NoIndexScroll(cmds: seq<Command>) {
    forall i :: 0 <= i < |cmds| ==> !cmds[i].ScrollToIndex?
  }

  /** No event in `es` is the end of a momentum scroll. */
  predicate NoSettle(es: seq<Event>) {
    forall i :: 0 <= i < |es| ==> !es[i].Settle?
  }

  /** No event in `es` lifts the finger. */
  predicate NoTouchEnd(es: seq<Event>) {
    forall i :: 0 <= i < |es| ==> !es[i].TouchEnd?
  }

  lemma NoIndexScrollAppend(a: seq<Command>, b: seq<Command>)
    requires NoIndexScroll(a) && NoIndexScroll(b)
    ensures NoIndexScroll(a + b)
  {
    forall i | 0 <= i < |a + b|
      ensures !(a + b)[i].ScrollToIndex?
    {
      if i >= |a| {
        assert (a + b)[i] == b[i - |a|];
      }
    }
  }

  /** While the user is touching and no pending cooldown can fall due, no
      tick scrolls to an index and the suppression stays in force, whatever
      else happens (more touches, settles, list or mount changes, focus
      changes, failed scrolls). Only a settle moves the index meanwhile.
      `horizon` is a time no pending cooldown precedes and that the events
      do not reach; a touch-end inside the run schedules its cooldown at or
      after it. */
  lemma {:induction false} SuppressedUntilCooldown(k: Kind, s: State, es: seq<Event>, horizon: int)
    requires s.userTouched
    requires forall i :: 0 <= i < |s.pending| ==> s.pending[i] >= horizon
    requires s.now + Elapsed(es) < horizon <= s.now + Cooldown(k)
    ensures Run(k, s, es).final.userTouched
    ensures NoIndexScroll(Run(k, s, es).cmds)
    ensures NoSettle(es) ==> Run(k, s, es).final.currentIndex == s.currentIndex
    decreases |es|
  {
    if |es| > 0 {
      var e := es[0];
      var t := Step(k, s, e);
      var s1 := t.next;
      assert es == [e] + es[1..];
      RunCons(k, s, e, es[1..]);
      assert s1.userTouched;
      assert !e.Settle? ==> s1.currentIndex == s.currentIndex;
      assert NoSettle(es) ==> NoSettle(es[1..]);
      assert forall i :: 0 <= i < |s1.pending| ==> s1.pending[i] >= horizon by {
        forall i | 0 <= i < |s1.pending|
          ensures s1.pending[i] >= horizon
        {
          var d := s1.pending[i];
          if e.TouchEnd? && i == |s.pending| {
            assert d == s.now + Cooldown(k);
          } else {
            assert d in s.pending;
          }
        }
      }
      assert s1.now + Elapsed(es[1..]) == s.now + Elapsed(es);
      SuppressedUntilCooldown(k, s1, es[1..], horizon);
      assert NoIndexScroll(Emitted(t.cmd));
      NoIndexScrollAppend(Emitted(t.cmd), Run(k, s1, es[1..]).cmds);
    }
  }

  /** A touch from a controller with no pending cooldown suppresses
      auto-advance for anything shorter than the cooldown after the finger
      lifts (3000 ms for the rail, 4000 ms for the hero): no scroll to an
      index is sent, and without a settle the index stays where it was. */
  lemma TouchHoldsForCooldown(k: Kind, s: State, es: seq<Event>)
    requires |s.pending| == 0
    requires Elapsed(es) < Cooldown(k)
    ensures NoIndexScroll(Run(k, s, [TouchStart, TouchEnd] + es).cmds)
    ensures NoSettle(es) ==> Run(k, s, [TouchStart, TouchEnd] + es).final.currentIndex == s.currentIndex
  {
    var s1 := OnTouchStart(s);
    var s2 := OnTouchEnd(k, s1);
    assert [TouchStart, TouchEnd] + es == [TouchStart] + ([TouchEnd] + es);
    RunQuiet(k, s, TouchStart, [TouchEnd] + es);
    RunQuiet(k, s1, TouchEnd, es);
    assert s2.pending == [s.now + Cooldown(k)];
    SuppressedUntilCooldown(k, s2, es, s.now + Cooldown(k));
  }

  /** A swipe: touch, lift, and the momentum scroll settles at `offsetX`.
      The index becomes the item the swipe came to rest on and stays there
      for anything shorter than the cooldown after the lift; no tick scrolls
      away from it meanwhile. */
  lemma SwipeStaysWhereItSettled(k: Kind, s: State, offsetX: int, es: seq<Event>)
    requires |s.pending| == 0
    requires Elapsed(es) < Cooldown(k)
    requires NoSettle(es)
    ensures Run(k, s, [TouchStart, TouchEnd, Settle(offsetX)] + es).final.currentIndex
         == RoundDiv(offsetX, Extent(k))
    ensures NoIndexScroll(Run(k, s, [TouchStart, TouchEnd, Settle(offsetX)] + es).cmds)
  {
    var s1 := OnTouchStart(s);
    var s2 := OnTouchEnd(k, s1);
    var s3 := OnSettle(k, s2, offsetX);
    assert [TouchStart, TouchEnd, Settle(offsetX)] + es
        == [TouchStart] + ([TouchEnd] + ([Settle(offsetX)] + es));
    RunQuiet(k, s, TouchStart, [TouchEnd] + ([Settle(offsetX)] + es));
    RunQuiet(k, s1, TouchEnd, [Settle(offsetX)] + es);
    RunQuiet(k, s2, Settle(offsetX), es);
    assert s3.pending == [s.now + Cooldown(k)];
    SuppressedUntilCooldown(k, s3, es, s.now + Cooldown(k));
  }

  /** While the finger stays down with no cooldown pending, nothing releases
      it, however long it is held: without a touch-end no event clears the
      suppression, schedules a cooldown or sends a scroll-to-index, and
      without a settle the index stays where it was. */
  lemma {:induction false} HoldKeepsSuppressed(k: Kind, s: State, hold: seq<Event>)
    requires s.userTouched && |s.pending| == 0
    requires NoTouchEnd(hold)
    ensures Run(k, s, hold).final.userTouched
    ensures |Run(k, s, hold).final.pending| == 0
    ensures NoIndexScroll(Run(k, s, hold).cmds)
    ensures NoSettle(hold) ==> Run(k, s, hold).final.currentIndex == s.currentIndex
    decreases |hold|
  {
    if |hold| > 0 {
      var e := hold[0];
      var t := Step(k, s, e);
      var s1 := t.next;
      assert hold == [e] + hold[1..];
      RunCons(k, s, e, hold[1..]);
      assert NoTouchEnd(hold[1..]);
      assert NoSettle(hold) ==> NoSettle(hold[1..]) && s1.currentIndex == s.currentIndex;
      HoldKeepsSuppressed(k, s1, hold[1..]);
      assert NoIndexScroll(Emitted(t.cmd));
      NoIndexScrollAppend(Emitted(t.cmd), Run(k, s1, hold[1..]).cmds);
    }
  }

  /** Lifting a finger with no cooldown pending suppresses auto-advance for
      anything shorter than the cooldown. */
  lemma LiftHoldsForCooldown(k: Kind, s: State, after: seq<Event>)
    requires s.userTouched && |s.pending| == 0
    requires Elapsed(after) < Cooldown(k)
    ensures NoIndexScroll(Run(k, s, [TouchEnd] + after).cmds)
    ensures NoSettle(after) ==> Run(k, s, [TouchEnd] + after).final.currentIndex == s.currentIndex
  {
    var s1 := OnTouchEnd(k, s);
    RunQuiet(k, s, TouchEnd, after);
    assert s1.pending == [s.now + Cooldown(k)];
    SuppressedUntilCooldown(k, s1, after, s.now + Cooldown(k));
  }

  /** A touch held for any time and then lifted suppresses auto-advance until
      the cooldown after the lift has run out: with events spanning less
      than 3000 ms (rail) or 4000 ms (hero) after the lift, no scroll to an
      index is sent, and without a settle the index stays where it was. */
  lemma HeldTouchHoldsForCooldown(k: Kind, s: State, hold: seq<Event>, after: seq<Event>)
    requires |s.pending| == 0
    requires NoTouchEnd(hold)
    requires Elapsed(after) < Cooldown(k)
    ensures NoIndexScroll(Run(k, s, [TouchStart] + hold + [TouchEnd] + after).cmds)
    ensures NoSettle(hold) && NoSettle(after) ==>
              Run(k, s, [TouchStart] + hold + [TouchEnd] + after).final.currentIndex == s.currentIndex
  {
    var front := [TouchStart] + hold;
    var back := [TouchEnd] + after;
    assert [TouchStart] + hold + [TouchEnd] + after == front + back;
    TouchAndHold(k, s, hold);
    var h := Run(k, s, front);
    RunAppend(k, s, front, back);
    LiftHoldsForCooldown(k, h.final, after);
    NoIndexScrollAppend(h.cmds, Run(k, h.final, back).cmds);
  }

  lemma TouchAndHold(k: Kind, s: State, hold: seq<Event>)
    requires |s.pending| == 0
    requires NoTouchEnd(hold)
    ensures Run(k, s, [TouchStart] + hold).final.userTouched
    ensures |Run(k, s, [TouchStart] + hold).final.pending| == 0
    ensures NoIndexScroll(Run(k, s, [TouchStart] + hold).cmds)
    ensures NoSettle(hold) ==> Run(k, s, [TouchStart] + hold).final.currentIndex == s.currentIndex
  {
    RunQuiet(k, s, TouchStart, hold);
    HoldKeepsSuppressed(k, OnTouchStart(s), hold);
  }

  /** Once the cooldown after the finger lifts has run out, the next tick
      advances again, exactly once. */
  lemma CooldownExpiryResumes(k: Kind, s: State)
    requires s.refPresent && s.n >= MinItems(k)
    ensures Run(k, s, [TouchStart, TouchEnd, Elapse(Cooldown(k)), Tick]).cmds
         == [ScrollToIndex(NextIndex(s.currentIndex, s.n))]
  {
    var s1 := OnTouchStart(s);
    var s2 := OnTouchEnd(k, s1);
    var s3 := OnElapse(s2, Cooldown(k));
    assert s2.pending[|s.pending|] == s.now + Cooldown(k);
    assert !s3.userTouched;
    RunCons(k, s, TouchStart, [TouchEnd, Elapse(Cooldown(k)), Tick]);
    RunCons(k, s1, TouchEnd, [Elapse(Cooldown(k)), Tick]);
    RunCons(k, s2, Elapse(Cooldown(k)), [Tick]);
    RunCons(k, s3, Tick, []);
  }

  /** Runs compose: feeding `a` and then `b` is feeding `a + b`. */
  lemma {:induction false} RunAppend(k: Kind, s: State, a: seq<Event>, b: seq<Event>)
    ensures Run(k, s, a + b)
         == Trace(Run(k, Run(k, s, a).final, b).final,
                  Run(k, s, a).cmds + Run(k, Run(k, s, a).final, b).cmds)
    decreases |a|
  {
    if |a| == 0 {
      assert a + b == b;
      assert Run(k, s, a) == Trace(s, []);
    } else {
      var e := a[0];
      var t := Step(k, s, e);
      assert a + b == [e] + (a[1..] + b);
      assert a == [e] + a[1..];
      RunCons(k, s, e, a[1..] + b);
      RunCons(k, s, e, a[1..]);
      RunAppend(k, t.next, a[1..], b);
      var ra := Run(k, t.next, a[1..]);
      var rb := Run(k, ra.final, b);
      assert Run(k, s, a) == Trace(ra.final, Emitted(t.cmd) + ra.cmds);
      assert Run(k, s, a + b) == Trace(rb.final, Emitted(t.cmd) + (ra.cmds + rb.cmds));
      assert Emitted(t.cmd) + (ra.cmds + rb.cmds) == (Emitted(t.cmd) + ra.cmds) + rb.cmds;
    }
  }

  /** The events of a touch that lifts, touches again and loses and regains
      focus, while the earlier cooldown runs out. */
  function HeldAcrossCooldown(k: Kind): seq<Event> {
    [TouchEnd, TouchStart, FocusChanged(false), FocusChanged(true), Elapse(Cooldown(k))]
  }

  /** A cooldown is never cancelled: not by a later touch, not by losing
      focus. A cooldown scheduled by an earlier touch-end therefore clears
      `userTouched` while the finger is down again. */
  lemma EarlierCooldownReleasesHeldTouch(k: Kind, s: State)
    ensures Run(k, s, HeldAcrossCooldown(k)).final.userTouched == false
    ensures Run(k, s, HeldAcrossCooldown(k)).final
         == s.(userTouched := false, now := s.now + Cooldown(k),
               pending := Run(k, s, HeldAcrossCooldown(k)).final.pending)
    ensures Run(k, s, HeldAcrossCooldown(k)).cmds == []
  {
    var c := Cooldown(k);
    var s2 := OnTouchStart(OnTouchEnd(k, s));
    var s3 := OnElapse(s2, c);
    assert s2.pending[|s.pending|] == s.now + c;
    assert !s3.userTouched;
    assert HeldAcrossCooldown(k)
        == [TouchEnd, TouchStart] + ([FocusChanged(false), FocusChanged(true)] + [Elapse(c)]);
    LiftThenTouchAgain(k, s, [FocusChanged(false), FocusChanged(true)] + [Elapse(c)]);
    FocusChangesIgnored(k, s2, [Elapse(c)]);
    assert Step(k, s2, Elapse(c)) == Transition(s3, None);
    RunQuiet(k, s2, Elapse(c), []);
  }

  /** Lifting and touching again only schedules a cooldown and sets the flag. */
  lemma LiftThenTouchAgain(k: Kind, s: State, rest: seq<Event>)
    ensures Run(k, s, [TouchEnd, TouchStart] + rest) == Run(k, OnTouchStart(OnTouchEnd(k, s)), rest)
  {
    var s1 := OnTouchEnd(k, s);
    assert [TouchEnd, TouchStart] + rest == [TouchEnd] + ([TouchStart] + rest);
    RunQuiet(k, s, TouchEnd, [TouchStart] + rest);
    RunQuiet(k, s1, TouchStart, rest);
  }

  /** Losing and regaining focus leaves the controller as it was. */
  lemma FocusChangesIgnored(k: Kind, s: State, rest: seq<Event>)
    ensures Run(k, s, [FocusChanged(false), FocusChanged(true)] + rest) == Run(k, s, rest)
  {
    assert [FocusChanged(false), FocusChanged(true)] + rest
        == [FocusChanged(false)] + ([FocusChanged(true)] + rest);
    RunQuiet(k, s, FocusChanged(false), [FocusChanged(true)] + rest);
    RunQuiet(k, s, FocusChanged(true), rest);
  }

  /** ... and the next tick then scrolls under the user's finger. */
  lemma TickAfterReleasedHeldTouchScrolls(k: Kind, s: State)
    requires s.refPresent && s.n >= MinItems(k)
    ensures Run(k, s, HeldAcrossCooldown(k) + [Tick]).cmds
         == [ScrollToIndex(NextIndex(s.currentIndex, s.n))]
  {
    EarlierCooldownReleasesHeldTouch(k, s);
    var mid := Run(k, s, HeldAcrossCooldown(k)).final;
    RunAppend(k, s, HeldAcrossCooldown(k), [Tick]);
    RunCons(k, mid, Tick, []);
  }

  // ---------------------------------------------------------------------
  // Settle and the scroll-failed fallback

  /** The rounding of `RoundDiv` has exactly one answer. */
  lemma RoundDivUnique(x: int, d: Positive, r: int)
    requires 2 * d * r - d <= 2 * x < 2 * d * r + d
    ensures r == RoundDiv(x, d)
  {
    var r0 := RoundDiv(x, d);
    if r > r0 {
      assert (r - r0) * (2 * d) == 2 * d * r - 2 * d * r0;
      MulAtLeast(r - r0, 2 * d);
    } else if r < r0 {
      assert (r0 - r) * (2 * d) == 2 * d * r0 - 2 * d * r;
      MulAtLeast(r0 - r, 2 * d);
    }
  }

  /** Coming to rest exactly on item position i sets the index to i, for
      every integer i: inside the list, past its end or before its start. */
  lemma SettleOnItemPosition(k: Kind, s: State, i: int)
    ensures Step(k, s, Settle(Extent(k) * i)).next == s.(currentIndex := i)
  {
    RoundDivUnique(Extent(k) * i, Extent(k), i);
  }

  /** The settled index is not clamped: resting one position past the last
      item leaves the index equal to the list length. */
  lemma SettleNotClamped(k: Kind, s: State)
    ensures Step(k, s, Settle(Extent(k) * s.n)).next.currentIndex == s.n
  {
    SettleOnItemPosition(k, s, s.n);
  }

  /** On the rail, when the average item length equals the snap extent, the
      offset fallback lands on the requested item and the following settle
      reconciles the index to it. */
  lemma FallbackThenSettleReconciles(w: nat, s: State, i: int)
    requires s.refPresent
    ensures Run(Rail(w), s, [ScrollToIndexFailed(i, w + RailGap), Settle((w + RailGap) * i)])
         == Trace(s.(currentIndex := i), [ScrollToOffset((w + RailGap) * i)])
  {
    var k := Rail(w);
    RunCons(k, s, ScrollToIndexFailed(i, w + RailGap), [Settle((w + RailGap) * i)]);
    RunCons(k, s, Settle((w + RailGap) * i), []);
    SettleOnItemPosition(k, s, i);
  }

  /** The hero ignores a failed index scroll entirely. */
  lemma HeroHasNoFallback(w: Positive, s: State, i: int, avg: int)
    ensures Step(Hero(w), s, ScrollToIndexFailed(i, avg)) == Transition(s, None)
  {
  }
}

=== FILE: decimal.dfy ===
/** Decimal text of a natural number, as JavaScript writes an integral
    Number into a template literal or a Text node: digits only, no sign,
    no leading zero. `Parse` is its inverse. */
module Decimal {

  predicate IsDigit(c: char) {
    '0' <= c <= '9'
  }

  predicate AllDigits(s: string) {
    forall i :: 0 <= i < |s| ==> IsDigit(s[i])
  }

  function DigitChar(d: nat): (c: char)
    requires d < 10
    ensures IsDigit(c)
  {
    "0123456789"[d]
  }

  function DigitValue(c: char): (d: nat)
    requires IsDigit(c)
    ensures d < 10
  {
    c as int - '0' as int
  }

  /** The decimal numeral of `n`. */
  function Show(n: nat): (s: string)
    ensures AllDigits(s)
    ensures 1 <= |s|
    ensures n < 10 <==> |s| == 1
    ensures n < 100 ==> |s| <= 2
    ensures n > 0 ==> s[0] != '0'
    decreases n
  {
    if n < 10 then [DigitChar(n)] else Show(n / 10) + [DigitChar(n % 10)]
  }

  /** The value of a string of decimal digits (most significant first). */
  function Parse(s: string): nat
    requires AllDigits(s)
    decreases |s|
  {
    if |s| == 0 then 0 else Parse(s[..|s| - 1]) * 10 + DigitValue(s[|s| - 1])
  }

  /** Reading back the numeral gives the number it was written from. */
  lemma {:induction false} ParseShow(n: nat)
    ensures Parse(Show(n)) == n
    decreases n
  {
    if n >= 10 {
      var prefix := Show(n / 10);
      var s := prefix + [DigitChar(n % 10)];
      assert s[..|s| - 1] == prefix;
      ParseShow(n / 10);
    }
  }

  /** Distinct numbers have distinct numerals. */
  lemma ShowInjective(a: nat, b: nat)
    ensures Show(a) == Show(b) ==> a == b
  {
    ParseShow(a);
    ParseShow(b);
  }
}

=== FILE: status.dfy ===
/** The colour and label of a novel's publication-status tag on the hero
    banner. */
module Status {

  const Completed: string := "مكتملة"
  const Stopped: string := "متوقفة"
  const Ongoing: string := "مستمرة"

  const CompletedColor: string := "#27ae60"
  const StoppedColor: string := "#c0392b"
  const OngoingColor: string := "#8e44ad"

  datatype StatusConfig = StatusConfig(color: string, labelText: string)

  /** Maps a status string to its tag. The two recognised statuses are shown
      as they are; every other value, including the empty string, is shown
      as an ongoing novel. */
  function ConfigOf(status: string): (r: StatusConfig)
    ensures r.labelText == Completed || r.labelText == Stopped || r.labelText == Ongoing
    ensures status == Completed || status == Stopped ==> r.labelText == status
    ensures status == Completed ==> r.color == CompletedColor
    ensures status == Stopped ==> r.color == StoppedColor
    ensures status != Completed && status != Stopped ==> r == StatusConfig(OngoingColor, Ongoing)
  {
    if status == Completed then StatusConfig(CompletedColor, Completed)
    else if status == Stopped then StatusConfig(StoppedColor, Stopped)
    else StatusConfig(OngoingColor, Ongoing)
  }

  /** A tag's label is itself a status that maps back to the same tag. */
  lemma ConfigOfLabel(status: string)
    ensures ConfigOf(ConfigOf(status).labelText) == ConfigOf(status)
  {
  }

  /** Two statuses get the same colour exactly when they get the same
      label: the colour is a function of the label and tells labels apart. */
  lemma ColorMatchesLabel(a: string, b: string)
    ensures ConfigOf(a).color == ConfigOf(b).color <==> ConfigOf(a).labelText == ConfigOf(b).labelText
  {
  }
}

=== FILE: time_ago.dfy ===
/** The relative-time label shown under notifications and latest-chapter
    cards: elapsed seconds since a date, bucketed into the largest calendar
    unit the elapsed time strictly exceeds, and the Arabic text for it. */
module TimeAgo {
  import opened Wrappers
  import Decimal

  datatype Unit = Year | Month | Day | Hour | Minute

  /** Length of a unit in seconds, as the source fixes it (a year is 365
      days, a month 30 days). */
  function Seconds(u: Unit): (k: nat)
    ensures k >= 60
  {
    match u
    case Year => 31536000
    case Month => 2592000
    case Day => 86400
    case Hour => 3600
    case Minute => 60
  }

  /** The bucket a date falls into. */
  datatype Ago =
    | Soon                           // no date at all
    | JustNow                        // at most a minute ago, or in the future
    | Since(unit: Unit, count: nat)  // `count` whole units ago

  /** Buckets the elapsed time. `elapsed` is None for a missing date and
      otherwise the whole seconds between the date and the current time
      (negative for a date in the future). Units are tried from the year
      down; the first one the elapsed time strictly exceeds wins. */
  function Classify(elapsed: Option<int>): (r: Ago)
    ensures r == Soon <==> elapsed.None?
    ensures r == JustNow <==> elapsed.Some? && elapsed.value <= Seconds(Minute)
    ensures r.Since? ==> elapsed.Some? && elapsed.value > Seconds(r.unit)
    ensures r.Since? ==> r.count * Seconds(r.unit) <= elapsed.value < (r.count + 1) * Seconds(r.unit)
    ensures r.Since? ==> forall u :: Seconds(u) > Seconds(r.unit) ==> elapsed.value <= Seconds(u)
    ensures r.Since? ==> r.count >= 1
    ensures r.Since? && r.unit == Month ==> r.count <= 12
    ensures r.Since? && r.unit == Day ==> r.count <= 30
    ensures r.Since? && r.unit == Hour ==> r.count <= 24
    ensures r.Since? && r.unit == Minute ==> r.count <= 60
  {
    match elapsed
    case None => Soon
    case Some(s) =>
      if s > Seconds(Year) then Since(Year, s / Seconds(Year))
      else if s > Seconds(Month) then Since(Month, s / Seconds(Month))
      else if s > Seconds(Day) then Since(Day, s / Seconds(Day))
      else if s > Seconds(Hour) then Since(Hour, s / Seconds(Hour))
      else if s > Seconds(Minute) then Since(Minute, s / Seconds(Minute))
      else JustNow
  }

  /** `a` is no later a bucket than `b`: the order in which buckets follow
      one another as a date recedes into the past. */
  predicate NoLater(a: Ago, b: Ago) {
    match (a, b)
    case (JustNow, Since(_, _)) => true
    case (JustNow, JustNow) => true
    case (Since(u, c), Since(v, d)) => Seconds(u) < Seconds(v) || (u == v && c <= d)
    case _ => a == b
  }

  /** The older the date, the later its bucket: the label never goes back
      to a smaller unit or a smaller count as the elapsed time grows. */
  lemma ClassifyMonotone(s1: int, s2: int)
    requires s1 <= s2
    ensures NoLater(Classify(Some(s1)), Classify(Some(s2)))
  {
  }

  /** A duration of exactly one unit is reported in the next smaller unit:
      the comparison with each unit is strict. */
  lemma ExactUnitDropsToSmallerUnit()
    ensures Classify(Some(Seconds(Year))) == Since(Month, 12)
    ensures Classify(Some(Seconds(Month))) == Since(Day, 30)
    ensures Classify(Some(Seconds(Day))) == Since(Hour, 24)
    ensures Classify(Some(Seconds(Hour))) == Since(Minute, 60)
    ensures Classify(Some(Seconds(Minute))) == JustNow
  {
  }

  const SoonText: string := "قريباً"
  const JustNowText: string := "الآن"
  const SincePrefix: string := "منذ "

  /** The Arabic word the label uses for each unit. */
  function UnitName(u: Unit): string {
    match u
    case Year => "سنة"
    case Month => "شهر"
    case Day => "يوم"
    case Hour => "ساعة"
    case Minute => "دقيقة"
  }

  /** The label text of a bucket: "منذ <count> <unit>" for a past date. */
  function Render(a: Ago): (r: string)
    ensures r == SoonText <==> a == Soon
    ensures r == JustNowText <==> a == JustNow
    ensures a.Since? ==> |r| > |SincePrefix| && r[..|SincePrefix|] == SincePrefix
    ensures a.Since? ==> |r| > |UnitName(a.unit)| && r[|r| - |UnitName(a.unit)|..] == UnitName(a.unit)
    ensures a.Since? ==> Decimal.IsDigit(r[|SincePrefix|])
    ensures a.Since? && a.count > 0 ==> r[|SincePrefix|] != '0'
  {
    match a
    case Soon => SoonText
    case JustNow => JustNowText
    case Since(u, c) => SincePrefix + Decimal.Show(c) + " " + UnitName(u)
  }

  function UnitNamed(name: string): Option<Unit> {
    if name == UnitName(Year) then Some(Year)
    else if name == UnitName(Month) then Some(Month)
    else if name == UnitName(Day) then Some(Day)
    else if name == UnitName(Hour) then Some(Hour)
    else if name == UnitName(Minute) then Some(Minute)
    else None
  }

  /** Number of leading decimal digits of `s`. */
  function DigitRun(s: string): (k: nat)
    ensures k <= |s|
    ensures Decimal.AllDigits(s[..k])
  {
    if |s| == 0 || !Decimal.IsDigit(s[0]) then 0
    else
      var k := 1 + DigitRun(s[1..]);
      assert s[..k] == [s[0]] + s[1..][..k - 1];
      k
  }

  /** Reads a label back into its bucket; None for text no bucket renders. */
  function Read(t: string): Option<Ago> {
    if t == SoonText then Some(Soon)
    else if t == JustNowText then Some(JustNow)
    else if |t| < |SincePrefix| || t[..|SincePrefix|] != SincePrefix then None
    else
      var body := t[|SincePrefix|..];
      var k := DigitRun(body);
      if k == 0 || k == |body| || body[k] != ' ' then None
      else if k > 1 && body[0] == '0' then None  // a count is never zero-padded
      else
        match UnitNamed(body[k + 1..])
        case None => None
        case Some(u) => Some(Since(u, Decimal.Parse(body[..k])))
  }

  lemma {:induction false} DigitRunOfNumeral(digits: string, rest: string)
    requires Decimal.AllDigits(digits)
    requires |rest| > 0 && !Decimal.IsDigit(rest[0])
    ensures DigitRun(digits + rest) == |digits|
    decreases |digits|
  {
    if |digits| > 0 {
      assert (digits + rest)[1..] == digits[1..] + rest;
      DigitRunOfNumeral(digits[1..], rest);
    }
  }

  lemma UnitNameReadsBack(u: Unit)
    ensures UnitNamed(UnitName(u)) == Some(u)
  {
  }

  lemma {:induction false} ReadSinceText(u: Unit, c: nat)
    ensures Read(SincePrefix + Decimal.Show(c) + " " + UnitName(u)) == Some(Since(u, c))
  {
    var digits := Decimal.Show(c);
    var rest := " " + UnitName(u);
    var t := SincePrefix + (digits + rest);
    assert SincePrefix + digits + " " + UnitName(u) == t;
    assert t[0] == SincePrefix[0];
    assert t != SoonText by { assert SoonText[0] != SincePrefix[0]; }
    assert t != JustNowText by { assert JustNowText[0] != SincePrefix[0]; }
    assert t[..|SincePrefix|] == SincePrefix;
    var body := t[|SincePrefix|..];
    assert body == digits + rest;
    DigitRunOfNumeral(digits, rest);
    assert body[..|digits|] == digits;
    assert body[|digits| + 1..] == UnitName(u);
    UnitNameReadsBack(u);
    Decimal.ParseShow(c);
  }

  /** Every bucket renders to a text that reads back as that bucket, so two
      different buckets never show the same label. */
  lemma RenderRoundTrip(a: Ago)
    ensures Read(Render(a)) == Some(a)
  {
    if a.Since? {
      ReadSinceText(a.unit, a.count);
    }
  }

  /** The label shown for a date, given its elapsed seconds: "soon" exactly
      for a missing date, "just now" exactly for at most a minute, and in
      every case a text that reads back as the date's bucket. */
  function TimeAgoText(elapsed: Option<int>): (r: string)
    ensures r == SoonText <==> elapsed.None?
    ensures r == JustNowText <==> elapsed.Some? && elapsed.value <= Seconds(Minute)
    ensures Read(r) == Some(Classify(elapsed))
    ensures elapsed.Some? && elapsed.value > Seconds(Minute) ==>
              |r| > |SincePrefix| && r[..|SincePrefix|] == SincePrefix && r[|SincePrefix|] != '0'
  {
    RenderRoundTrip(Classify(elapsed));
    Render(Classify(elapsed))
  }
}

=== FILE: wrappers.dfy ===
/** The optional-value datatype shared by the other modules: a value that
    the screen may or may not have (a missing date, a hidden badge, a
    scroll command that was not issued). */
module Wrappers {

  datatype Option<+T> = None | Some(value: T)
}
